=== FILE: README.md ===
# Context-sensitive code runner, modelled in Dafny

Gosu's `ContextSensitiveCodeRunner` lets a debugger evaluate a snippet of Gosu as if it were
written at a source position of a paused program. It computes a fingerprint for the snippet
at that position and looks it up in a static fingerprint cache. On a miss it walks from a
closure-like class out to the nearest class with a source location, moving the enclosing
instance outward in step through `this$0`. It then compiles inside an include-all scope of the
type system and caches the program, valid or not. Finally it builds the runtime symbol map from
the debugger's flat name/value array, rejects an invalid program, fits the constructor
arguments to the program's constructor, and evaluates it. The cache is emptied whenever the
type system's refresh checksum has moved since the cache last looked.

The model is a functional state machine over `RunnerState(cache, includeAllDepth)`:

- `ProgramCache`: the cache with checksum invalidation (`cacheProgram`, `getCachedProgram`,
  `clearCacheOnChecksumChange`), and a reference definition of what a get sees after any
  history of accesses.
- `RuntimeSymbols`: `makeRuntimeNamesAndValues`, both as a function and as the Java loop.
- `ArgumentShape`: the leading `outer` argument and the three-way constructor shape match.
- `EnclosingWalk`: the walk out of classes without a source location. Type handles form an
  inductive datatype, so every nesting chain is finite and the walk terminates by structure.
- `CodeRunner`: the compile-or-reuse flow of `compileAndRunMeSomeCode` and the dispatch of
  `_runMeSomeCode`. The parser, symbol-table recovery, `getDeepestLocation`, the evaluation key,
  the reflective `this$0` read and construct-and-evaluate are `Services`: total functions passed in.
  The type system's refresh checksum is a parameter of each evaluation. Reinitialising the type
  system bumps it, so a reinitialisation is any change of that parameter.
- `CodeRunnerProperties`: what one or two evaluations do to the cache and to their results.

Some behaviour of the code that is easy to miss:

- A static program whose only constructor parameter is the symbol map receives the map. The
  parameter count 1 exceeds the argument count 0 and the last parameter is the map type
  (`ArgumentShape.StaticEnvOnlyShape`).
- The symbol map is appended for any shortfall when the last parameter is the map type, not
  only a shortfall of one. A longer shortfall then fails in `Constructor.newInstance`
  (`ArgumentShape.MatchedArityFits`, `CodeRunner.Invoke`).
- A cached program is not recompiled when invalid. The result of `program.isValid()` at line
  119 is ignored, and the evaluation throws the program's parse-results exception
  (`CodeRunnerProperties.InvalidCachedProgramRaises`).
- When the walk ends at a Gosu class that has neither a location nor an enclosing type, the
  code dereferences the missing location at line 152. That is a `NullPointerException` inside
  the include-all scope, not a dedicated error.
- A null symbol array throws `NullPointerException` when its length is read at line 253, after
  the program was fetched or compiled (`CodeRunner.RuntimeSymbolsOf`).

## Model

| member | source | states |
|---|---|---|
| ProgramCache.Initial | gosu-core/src/main/java/gw/internal/gosu/parser/ContextSensitiveCodeRunner.java:44-45 | the cache starts empty with last-seen checksum 0 |
| ProgramCache.ClearOnChecksumChange | gosu-core/src/main/java/gw/internal/gosu/parser/ContextSensitiveCodeRunner.java:227-234 | afterwards the recorded checksum is the current one; an unchanged checksum leaves the cache as it was, a changed one leaves no entries |
| ProgramCache.Get | gosu-core/src/main/java/gw/internal/gosu/parser/ContextSensitiveCodeRunner.java:222-226 | the lookup hits exactly when the checksum is unchanged and the key is present, and then yields the stored program; the cache left behind is the checksum-tested one |
| ProgramCache.Put | gosu-core/src/main/java/gw/internal/gosu/parser/ContextSensitiveCodeRunner.java:217-221 | the key maps to the new program; other keys keep their programs only under an unchanged checksum; under a changed checksum the key is the only entry |
| ProgramCache.GetAfterPut | gosu-core/src/main/java/gw/internal/gosu/parser/ContextSensitiveCodeRunner.java:217-226 | a get after a put of the same key under the same checksum returns the program put |
| ProgramCache.PutLastWriteWins | gosu-core/src/main/java/gw/internal/gosu/parser/ContextSensitiveCodeRunner.java:217-221 | a second put of the same key replaces the first, and a get then sees the second program |
| ProgramCache.PutKeepsOtherKeys | gosu-core/src/main/java/gw/internal/gosu/parser/ContextSensitiveCodeRunner.java:217-221 | under an unchanged checksum a put leaves the lookup of every other key unchanged |
| ProgramCache.ChecksumChangeEmptiesCache | gosu-core/src/main/java/gw/internal/gosu/parser/ContextSensitiveCodeRunner.java:227-234 | under a changed checksum a get misses, leaves an empty cache recording the new checksum, and every later get of any key misses |
| ProgramCache.ClearIsIdempotent | gosu-core/src/main/java/gw/internal/gosu/parser/ContextSensitiveCodeRunner.java:229 | testing the checksum twice is the same as testing it once; an unchanged checksum keeps the map |
| ProgramCache.RunSeesLatestPut | gosu-core/src/main/java/gw/internal/gosu/parser/ContextSensitiveCodeRunner.java:217-234 | after any history of gets and puts, a get sees the newest put of its key unless a later access ran under another checksum |
| RuntimeSymbols.PairsFrom | gosu-core/src/main/java/gw/internal/gosu/parser/ContextSensitiveCodeRunner.java:253-257 | the loop from one slot on either throws a class-cast or index-out-of-bounds exception or binds symbols that are all typed Object |
| RuntimeSymbols.PairsFromOutcome | gosu-core/src/main/java/gw/internal/gosu/parser/ContextSensitiveCodeRunner.java:253-257 | the loop runs to the end exactly when the array has even length and every name slot casts to String; otherwise it throws at the first bad slot |
| RuntimeSymbols.PairsFromKeys | gosu-core/src/main/java/gw/internal/gosu/parser/ContextSensitiveCodeRunner.java:253-257 | the keys bound are exactly the names in the even slots, each bound to a symbol of that name typed Object |
| RuntimeSymbols.PairsFromLastWins | gosu-core/src/main/java/gw/internal/gosu/parser/ContextSensitiveCodeRunner.java:253-257 | a name is bound to the value after its last occurrence |
| RuntimeSymbols.RuntimeNamesAndValues | gosu-core/src/main/java/gw/internal/gosu/parser/ContextSensitiveCodeRunner.java:251-260 | success iff the array is well formed; keys are exactly the names, every symbol is typed Object, the last occurrence of a name wins; an odd length throws index-out-of-bounds and a non-string name throws class-cast, whichever comes first |
| RuntimeSymbols.MakeRuntimeNamesAndValues | gosu-core/src/main/java/gw/internal/gosu/parser/ContextSensitiveCodeRunner.java:251-260 | the Java loop, which overwrites earlier bindings pair by pair, computes exactly the symbol map or exception characterised above |
| RuntimeSymbols.SinglePairScenario | gosu-core/src/main/java/gw/internal/gosu/parser/ContextSensitiveCodeRunner.java:251-260 | the array ("x", 5) yields the single symbol x = 5 typed Object |
| ArgumentShape.LeadingArgs | gosu-core/src/main/java/gw/internal/gosu/parser/ContextSensitiveCodeRunner.java:185-189 | the argument list holds `outer` if and only if the program is not static, and nothing else |
| ArgumentShape.WantsTrailingEnv | gosu-core/src/main/java/gw/internal/gosu/parser/ContextSensitiveCodeRunner.java:195-196 | the map is appended only when the constructor has more parameters than the arguments so far and its last parameter is the external symbol map type, so appending never overshoots the parameter count |
| ArgumentShape.MatchShape | gosu-core/src/main/java/gw/internal/gosu/parser/ContextSensitiveCodeRunner.java:192-204 | equal counts keep the arguments; a larger count whose last parameter is the external symbol map appends exactly the map; every other mismatch is an IllegalStateException |
| ArgumentShape.ConstructorArgs | gosu-core/src/main/java/gw/internal/gosu/parser/ContextSensitiveCodeRunner.java:185-204 | matching fails with IllegalStateException, reporting the count before matching, exactly when the constructor's parameter count differs from the leading arguments and no trailing symbol-map parameter is wanted; equal counts pass the leading arguments unchanged; any other success is the leading arguments with the map appended; so the list starts with `outer` iff the program is not static |
| ArgumentShape.MatchedArityFits | gosu-core/src/main/java/gw/internal/gosu/parser/ContextSensitiveCodeRunner.java:192-207 | the matched arguments have the constructor's arity exactly when they were at most one short |
| ArgumentShape.InstanceWithEnvShape | gosu-core/src/main/java/gw/internal/gosu/parser/ContextSensitiveCodeRunner.java:185-204 | a program expecting (outer, map) and given only `outer` gets the map appended |
| ArgumentShape.StaticEnvOnlyShape | gosu-core/src/main/java/gw/internal/gosu/parser/ContextSensitiveCodeRunner.java:185-204 | a static program expecting only the map receives just the map |
| EnclosingWalk.NeedsStep | gosu-core/src/main/java/gw/internal/gosu/parser/ContextSensitiveCodeRunner.java:130 | the loop condition holds only for a class nested in another, and its enclosing type is strictly less deeply nested, so the loop terminates |
| EnclosingWalk.OuterStep | gosu-core/src/main/java/gw/internal/gosu/parser/ContextSensitiveCodeRunner.java:135-141 | reading `this$0` succeeds only on an object instance and then yields that instance's field value; null, strings and boxed integers fail |
| EnclosingWalk.Ancestor | gosu-core/src/main/java/gw/internal/gosu/parser/ContextSensitiveCodeRunner.java:132 | stepping n enclosing types out succeeds exactly when the nesting chain is at least n deep |
| EnclosingWalk.Walk | gosu-core/src/main/java/gw/internal/gosu/parser/ContextSensitiveCodeRunner.java:129-143 | on exit the class has no enclosing type, is not a Gosu class, or has a location; it is the ancestor as many levels out as `outer` took `this$0` steps, and the loop condition held at every level passed; a failed `this$0` read is a RuntimeException |
| EnclosingWalk.WalkStopsAtFixpoint | gosu-core/src/main/java/gw/internal/gosu/parser/ContextSensitiveCodeRunner.java:130 | walking again from where a walk stopped takes no step |
| EnclosingWalk.WalkSucceedsOnIntactOuterChain | gosu-core/src/main/java/gw/internal/gosu/parser/ContextSensitiveCodeRunner.java:130-143 | if every `this$0` read along the chain succeeds, the walk succeeds |
| EnclosingWalk.WalkFailsOnlyOnBrokenOuterChain | gosu-core/src/main/java/gw/internal/gosu/parser/ContextSensitiveCodeRunner.java:130-142 | a failed walk failed at some level n where the loop condition held at every level up to n, the `this$0` chain reached level n and its read there failed |
| EnclosingWalk.WalkSucceedsIffChainReachesStop | gosu-core/src/main/java/gw/internal/gosu/parser/ContextSensitiveCodeRunner.java:130-143 | the walk succeeds exactly when the `this$0` chain survives as many reads as there are levels before the loop condition first fails; it then took exactly that many steps and `outer` is the instance the chain reaches |
| CodeRunner.PushIncludeAll | gosu-core/src/main/java/gw/internal/gosu/parser/ContextSensitiveCodeRunner.java:145 | entering the include-all scope deepens it by one and leaves the cache alone |
| CodeRunner.PopIncludeAll | gosu-core/src/main/java/gw/internal/gosu/parser/ContextSensitiveCodeRunner.java:158 | leaving the include-all scope undoes exactly one push and leaves the cache alone |
| CodeRunner.KeyIgnoresBindings | gosu-core/src/main/java/gw/internal/gosu/parser/ContextSensitiveCodeRunner.java:114 | the fingerprint depends only on the text, the immediate context class and the offset; the instance, the symbol array and the outer context class do not change it |
| CodeRunner.SymbolsOf | gosu-core/src/main/java/gw/internal/gosu/parser/ContextSensitiveCodeRunner.java:124 | without a context class the compile-time symbols are a fresh table, otherwise the table recovered for the context class at the offset |
| CodeRunner.RuntimeSymbolsOf | gosu-core/src/main/java/gw/internal/gosu/parser/ContextSensitiveCodeRunner.java:251-257 | a null symbol array throws NullPointerException; otherwise the map built from the array; success exactly for a non-null well-formed array |
| CodeRunner.WalkRequest | gosu-core/src/main/java/gw/internal/gosu/parser/ContextSensitiveCodeRunner.java:129-143 | a null context class throws NullPointerException; a successful walk stops where no step is needed, with `outer` moved along the `this$0` chain |
| CodeRunner.CompileAt | gosu-core/src/main/java/gw/internal/gosu/parser/ContextSensitiveCodeRunner.java:148-154 | compiling fails with NullPointerException exactly for a Gosu class without a location; a Gosu class is parsed anchored at its deepest location at the offset, a non-Gosu type without an anchor |
| CodeRunner.CompileOnMiss | gosu-core/src/main/java/gw/internal/gosu/parser/ContextSensitiveCodeRunner.java:122-161 | the include-all depth is restored on every path; the miss branch succeeds exactly when the walk and the compilation both succeed, and then the parser runs once, one scope deep; the program returned is the walked class compiled with the context class's symbol table, bound to the walked instance, and is cached under the fingerprint whether valid or not; otherwise the state is untouched and the failure is the walk's RuntimeException or NullPointerException, or the missing location's NullPointerException |
| CodeRunner.Fetch | gosu-core/src/main/java/gw/internal/gosu/parser/ContextSensitiveCodeRunner.java:114-161 | a hit calls no parser, returns the cached program and only checksum-tests the cache; as written it binds the request's own instance, and with the walk on a hit it succeeds exactly when the walk does, binds the walked instance and otherwise throws the walk's exception; a miss is the compile branch on the checksum-tested cache |
| CodeRunner.Invoke | gosu-core/src/main/java/gw/internal/gosu/parser/ContextSensitiveCodeRunner.java:185-213 | a shape mismatch throws IllegalStateException, an arity mismatch after matching throws IllegalArgumentException; otherwise the result is the value `evaluate` returns for the matched arguments, or its failure wrapped as the thrown cause |
| CodeRunner.Flow | gosu-core/src/main/java/gw/internal/gosu/parser/ContextSensitiveCodeRunner.java:112-214 | the include-all depth is the same after an evaluation as before on every outcome; the parse and the validity check run exactly one include-all scope deep; the parser is called at most once, never on a hit; an exception from fetching or compiling, and then one from building the symbol map, is the evaluation's exception; a success or a parse-results failure passed the validity check; the cache records the current checksum; a miss that walks and compiles is `CodeRunnerProperties.MissCompilesAndCachesEvenInvalid` and `CodeRunnerProperties.MissRunsCompiledProgram`, a hit `CodeRunnerProperties.AsWrittenHitBindsRequestInstance` and `CodeRunnerProperties.WalkingOnHitBindsWalkedInstance` |
| CodeRunner.CompileAndRun | gosu-core/src/main/java/gw/internal/gosu/parser/ContextSensitiveCodeRunner.java:112-214 | the flow as written keeps the include-all depth balanced and does not compile on a hit; a miss that walks and compiles caches the program whether valid or not and raises the parse issues of an invalid one (`CodeRunnerProperties.MissCompilesAndCachesEvenInvalid`); a valid one is constructed with the walked instance (`CodeRunnerProperties.MissRunsCompiledProgram`), a hit with the request's own instance (`CodeRunnerProperties.AsWrittenHitBindsRequestInstance`) |
| CodeRunner.CompileAndRunWalkingOnHit | gosu-core/src/main/java/gw/internal/gosu/parser/ContextSensitiveCodeRunner.java:112-214 | the flow with the enclosing walk on both paths keeps the same guarantees, including caching and raising an invalid program on a miss (`CodeRunnerProperties.MissCompilesAndCachesEvenInvalid`); both a compiling run and a hit construct the program with the walked instance (`CodeRunnerProperties.MissRunsCompiledProgram`, `CodeRunnerProperties.WalkingOnHitBindsWalkedInstance`) |
| CodeRunner.Dispatch | gosu-core/src/main/java/gw/internal/gosu/parser/ContextSensitiveCodeRunner.java:95-110 | an unresolvable context name, or an immediate context that is not a Gosu class under a Gosu context, fails before any compilation and leaves the state unchanged; a Gosu context runs the flow with both classes and the source position, any other context with no context class and offset 0 |
| CodeRunner.RunMeSomeCode | gosu-core/src/main/java/gw/internal/gosu/parser/ContextSensitiveCodeRunner.java:95-110 | the dispatch as written: the same early failures, and otherwise exactly `compileAndRunMeSomeCode` as written on the resolved classes, with the source position only under a Gosu context |
| CodeRunner.RunMeSomeCodeWalkingOnHit | gosu-core/src/main/java/gw/internal/gosu/parser/ContextSensitiveCodeRunner.java:95-110 | the same dispatch with the same early failures (an unresolvable name, a non-Gosu immediate class under a Gosu context), over the flow that also walks the instance on a cache hit |
| CodeRunnerProperties.MissCachesCompiledProgram | gosu-core/src/main/java/gw/internal/gosu/parser/ContextSensitiveCodeRunner.java:122-175 | on a miss the parser was called exactly when the fingerprint is cached afterwards; a program cached invalid makes the evaluation fail with its parse issues unless the symbol array failed first; when the parser runs is `CodeRunnerProperties.MissCompilesAndCachesEvenInvalid` |
| CodeRunnerProperties.InvalidCachedProgramRaises | gosu-core/src/main/java/gw/internal/gosu/parser/ContextSensitiveCodeRunner.java:117-175 | an invalid cached program is not recompiled and the evaluation throws its parse issues, unless the symbol array failed first |
| CodeRunnerProperties.SecondCallServedFromCache | gosu-core/src/main/java/gw/internal/gosu/parser/ContextSensitiveCodeRunner.java:114-161 | repeating an evaluation that compiled, under the same checksum, does not call the parser |
| CodeRunnerProperties.CompiledRunCachesItsProgram | gosu-core/src/main/java/gw/internal/gosu/parser/ContextSensitiveCodeRunner.java:129-160 | an evaluation that compiled walked successfully and leaves in the cache the program it runs, bound to the walked instance |
| CodeRunnerProperties.WalkingOnHitRepeatsOutcome | gosu-core/src/main/java/gw/internal/gosu/parser/ContextSensitiveCodeRunner.java:114-213 | with the walk on both paths, a repeated evaluation under the same checksum has the same outcome as the one that compiled |
| CodeRunnerProperties.AsWrittenRepeatsOutcomeWithoutNesting | gosu-core/src/main/java/gw/internal/gosu/parser/ContextSensitiveCodeRunner.java:114-213 | as written, a repeated evaluation has the same outcome when the context class needed no outward step |
| CodeRunnerProperties.ChecksumChangeIsColdStart | gosu-core/src/main/java/gw/internal/gosu/parser/ContextSensitiveCodeRunner.java:227-234 | under a changed checksum any state evaluates exactly like a cold start with an empty cache |
| CodeRunnerProperties.NonGosuContextIgnoresPosition | gosu-core/src/main/java/gw/internal/gosu/parser/ContextSensitiveCodeRunner.java:105-109 | when the context is not a Gosu class the outcome does not depend on the source position |
| CodeRunnerProperties.MissCompilesAndCachesEvenInvalid | gosu-core/src/main/java/gw/internal/gosu/parser/ContextSensitiveCodeRunner.java:122-175 | on a miss whose walk and compilation succeed the parser runs once and the program is cached under the fingerprint whether valid or not; an invalid one then throws its parse issues once the symbol array has been built |
| CodeRunnerProperties.MissRunsCompiledProgram | gosu-core/src/main/java/gw/internal/gosu/parser/ContextSensitiveCodeRunner.java:122-213 | on a miss whose walk and compilation succeed with a valid program and a usable symbol array, the result is the freshly compiled program constructed with the walked instance and evaluated, under either flow |
| CodeRunnerProperties.AsWrittenHitBindsRequestInstance | gosu-core/src/main/java/gw/internal/gosu/parser/ContextSensitiveCodeRunner.java:117-208 | as written, a hit on a valid program with a usable symbol array constructs the program with the request's own instance, however deeply its class is nested |
| CodeRunnerProperties.WalkingOnHitBindsWalkedInstance | gosu-core/src/main/java/gw/internal/gosu/parser/ContextSensitiveCodeRunner.java:117-208 | with the walk on a hit, the same hit constructs the program with the walked instance |
| CodeRunnerProperties.ClosureFirstRunCompilesAndCaches | gosu-core/src/main/java/gw/internal/gosu/parser/ContextSensitiveCodeRunner.java:122-161 | in a closure, the first evaluation walks from the block class to Outer, compiles once, caches the program and evaluates with the Outer instance |
| CodeRunnerProperties.AsWrittenHitRebindsToClosureInstance | gosu-core/src/main/java/gw/internal/gosu/parser/ContextSensitiveCodeRunner.java:114-213 | as written, in a closure the first evaluation succeeds with the Outer instance, while the cached second one passes the block instance to a constructor that takes an Outer and fails with an argument type mismatch |
| CodeRunnerProperties.ClosureBlockInstanceRejected | gosu-core/src/main/java/gw/internal/gosu/parser/ContextSensitiveCodeRunner.java:185-213 | the Outer program, constructed with the block instance, fails with the argument type mismatch as its cause |
| CodeRunnerProperties.WalkingOnHitKeepsOuterInstance | gosu-core/src/main/java/gw/internal/gosu/parser/ContextSensitiveCodeRunner.java:114-143 | with the walk on both paths, both evaluations in the closure bind the Outer instance |

## Findings

| source | as written | input that shows it | evidently intended | confidence | as-written member | corrected member |
|---|---|---|---|---|---|---|
| gosu-core/src/main/java/gw/internal/gosu/parser/ContextSensitiveCodeRunner.java:117-143 | the walk that moves `outer` out of a closure to its enclosing instance runs only on a cache miss; on a hit the program compiled for the enclosing class is constructed with the closure instance (line 188), which `Constructor.newInstance` rejects with an argument type mismatch | the same snippet evaluated twice at a breakpoint inside a block, whose class has no location and is nested in `Outer`, with no checksum change | both evaluations bind the program to the `Outer` instance, as the first one does | medium; not executed | CodeRunnerProperties.AsWrittenHitRebindsToClosureInstance | CodeRunnerProperties.WalkingOnHitRepeatsOutcome |

`CodeRunner.CompileAndRun` is the flow as written and `CodeRunner.CompileAndRunWalkingOnHit`
the corrected one. Both are `CodeRunner.Flow` with one switch. The cache, depth and compile-count
lemmas hold for either setting. `CodeRunner.RunMeSomeCode` dispatches to the flow as written, as
lines 103 and 108 do; `CodeRunner.RunMeSomeCodeWalkingOnHit` is the corrected entry point.

## Left out

- The cross-classloader forwarding of `runMeSomeCode` (lines 65-94) is not modelled: `Class.forName`, the reflective invoke, cause unwrapping and reporting the first parse issue. Its guard `size() >= 0` at line 88 does not exclude an empty issue list.
- Parsing, symbol-table recovery, `getDeepestLocation`, `makeEvalKey`, the `this$0` field read, `Constructor.newInstance` and `evaluate` are foreign code, passed in as `Services`. Only the arity check of `newInstance` is modelled directly.
- The side effects of `isValid()` at lines 101 and 119 (lazy compilation) are not modelled; validity is a field of the program.
- The refresh checksum is read once per evaluation. The model does not let it change between the cache get and the cache put of one evaluation.
- Thread safety of the `ConcurrentHashMap` is out of scope: the cache is modelled sequentially.
- `ensureLoadedForDebuggerEval`, `System.out` printing, `printArgs`, the `assert` on the class loader at line 184 and the unused `findElemAt` are not modelled.
- `InternalGosuInit` is not part of this model beyond its effect of bumping the refresh checksum, which is a change of the checksum parameter.
- `makeStringFrom(source)` at line 125 is not modelled: the source is a string from the start.
- A null snippet source is not modelled: `source.toString()` at line 114 would throw NullPointerException before the cache is consulted, but `Request.source` is always a string.
- `TypeSystem.getByFullName` is not part of this model. It is a lookup that may fail, and an unknown name is `UnresolvedType`, raised before any compilation. Line 97 passes the global module and lines 102 and 107 do not; the module argument is not modelled, and one lookup serves all three calls.
- Argument type checks of `Constructor.newInstance` are part of `evaluate`, which reports them as a failure cause (`Execution`).

=== FILE: argument_shape.dfy ===
/**
  The constructor-argument shape of a compiled program: the enclosing instance comes first
  when the program is not static, and a trailing external-symbol-map parameter that the
  arguments do not cover is filled with the runtime symbol map.
 */
module ArgumentShape {
  import opened Wrappers
  import opened Runtime
  import opened RuntimeSymbols

  /** The class name the last constructor parameter is compared against. */
  const ExternalSymbolMapType: string := "gw.lang.reflect.gs.IExternalSymbolMap"

  /** A constructor argument: an enclosing instance, or the runtime symbol map. */
  datatype Arg = Instance(o: Obj) | Env(symbols: SymbolMap)

  /** The argument list before shape matching: `outer` if and only if the program is not static. */
  function LeadingArgs(isStatic: bool, outer: Obj): (r: seq<Arg>)
    ensures |r| > 0 <==> !isStatic
    ensures |r| > 0 ==> r == [Instance(outer)]
  {
    if isStatic then [] else [Instance(outer)]
  }

  /** True when the constructor wants more than the arguments and its last parameter is the
      external symbol map type. */
  predicate WantsTrailingEnv(params: seq<string>, args: seq<Arg>)
    ensures WantsTrailingEnv(params, args) ==> |params| > 0 && params[|params| - 1] == ExternalSymbolMapType
    ensures WantsTrailingEnv(params, args) ==> |args| < |params|
  {
    |params| > |args| && params[|params| - 1] == ExternalSymbolMapType
  }

  /** The three outcomes of matching the argument list against the constructor's parameters. */
  function MatchShape(params: seq<string>, args: seq<Arg>, env: SymbolMap): (r: Result<seq<Arg>, Fault>)
    ensures |params| == |args| ==> r == Success(args)
    ensures |params| != |args| && WantsTrailingEnv(params, args) ==> r == Success(args + [Env(env)])
    ensures r.Failure? <==> |params| != |args| && !WantsTrailingEnv(params, args)
    ensures r.Failure? ==> r.error == IllegalState(|args|)
  {
    if |params| == |args| then Success(args)
    else if WantsTrailingEnv(params, args) then Success(args + [Env(env)])
    else Failure(IllegalState(|args|))
  }

  /** The arguments handed to the constructor of a compiled program. */
  function ConstructorArgs(p: Program, outer: Obj, env: SymbolMap): (r: Result<seq<Arg>, Fault>)
    ensures r.Success? ==> (|r.value| > 0 && r.value[0] == Instance(outer) <==> !p.isStatic)
    ensures r.Success? ==> |r.value| <= 2
    ensures r.Success? ==> forall i :: 0 <= i < |r.value| ==> r.value[i] == Instance(outer) || r.value[i] == Env(env)
    ensures r.Failure? ==> r.error == IllegalState(if p.isStatic then 0 else 1)
    ensures r.Failure? <==> |p.ctorParams| != |LeadingArgs(p.isStatic, outer)|
                            && !WantsTrailingEnv(p.ctorParams, LeadingArgs(p.isStatic, outer))
    ensures |p.ctorParams| == |LeadingArgs(p.isStatic, outer)| ==> r == Success(LeadingArgs(p.isStatic, outer))
    ensures r.Success? && |p.ctorParams| != |LeadingArgs(p.isStatic, outer)| ==>
              r.value == LeadingArgs(p.isStatic, outer) + [Env(env)]
  {
    MatchShape(p.ctorParams, LeadingArgs(p.isStatic, outer), env)
  }

  /** A matched argument list has the constructor's arity exactly when the arguments were at
      most one short; a longer shortfall passes shape matching but not `newInstance`. */
  lemma MatchedArityFits(params: seq<string>, args: seq<Arg>, env: SymbolMap)
    requires MatchShape(params, args, env).Success?
    ensures |MatchShape(params, args, env).value| == |params| <==> |params| <= |args| + 1
  {
  }

  /** An instance-bound program taking (outer, symbol map) receives exactly those two. */
  lemma InstanceWithEnvShape(outer: Obj, outerType: string, env: SymbolMap)
    ensures ConstructorArgs(Program(true, [], false, [outerType, ExternalSymbolMapType]), outer, env)
         == Success([Instance(outer), Env(env)])
  {
    assert [Instance(outer)] + [Env(env)] == [Instance(outer), Env(env)];
  }

  /** A static program whose only parameter is the symbol map receives just the map. */
  lemma StaticEnvOnlyShape(outer: Obj, env: SymbolMap)
    ensures ConstructorArgs(Program(true, [], true, [ExternalSymbolMapType]), outer, env)
         == Success([Env(env)])
  {
    assert [] + [Env(env)] == [Env(env)];
  }
}

=== FILE: code_runner.dfy ===
/**
  The compile-or-reuse flow of `compileAndRunMeSomeCode` and the dispatch of
  `_runMeSomeCode`, as a state machine over the fingerprint cache and the depth of the
  type system's include-all scope. The parser, the type system's lookups, reflection and the
  evaluation of the compiled program are services passed in as total functions.
 */
module CodeRunner {
  import opened Wrappers
  import opened Runtime
  import opened ProgramCache
  import opened RuntimeSymbols
  import opened ArgumentShape
  import opened EnclosingWalk

  /** The collaborators the runner calls but does not implement. */
  datatype Services = Services(
    // GosuProgramParser.makeEvalKey: the fingerprint of a snippet at a position
    evalKey: (string, Option<TypeInfo>, int) -> string,
    // ContextSymbolTableUtil.getSymbolTableAtOffset
    symbolTableAt: (TypeInfo, int) -> SymbolTable,
    // getClassStatement().getLocation().getDeepestLocation(offset, false)
    deepestLocation: (TypeInfo, int) -> Option<Anchor>,
    // parseRuntimeExpr(key, source, class, symbols, anchor); it reports failures in the program
    parse: (string, string, TypeInfo, SymbolTable, Option<Anchor>) -> Program,
    // the value of the `this$0` field of each heap object that has one
    thisZero: nat -> Option<Obj>,
    // construction and evaluation; an error carries the thrown cause
    evaluate: (Program, seq<Arg>, SymbolMap) -> Result<Obj, string>)

  /** The runner's mutable static state, plus the type system's include-all depth. */
  datatype RunnerState = RunnerState(cache: Cache<Program>, includeAllDepth: nat)

  /** `TypeSystem.pushIncludeAll`. */
  function PushIncludeAll(s: RunnerState): (r: RunnerState)
    ensures r.cache == s.cache && r.includeAllDepth == s.includeAllDepth + 1
  {
    s.(includeAllDepth := s.includeAllDepth + 1)
  }

  /** `TypeSystem.popIncludeAll`: only a scope that was pushed can be popped. */
  function PopIncludeAll(s: RunnerState): (r: RunnerState)
    requires s.includeAllDepth > 0
    ensures r.cache == s.cache && r.includeAllDepth + 1 == s.includeAllDepth
    ensures PushIncludeAll(r) == s
  {
    s.(includeAllDepth := s.includeAllDepth - 1)
  }

  /** A call the runner makes that must see every module: the parse of the snippet and the
      validity check of the program, each with the include-all depth it ran at. */
  datatype ScopedCall = Parse(depth: nat) | ValidityCheck(depth: nat)

  /** A partial run: the state it leaves, how often it called the parser, the scoped calls it
      made in order, and its outcome. */
  datatype Step<T> = Step(state: RunnerState, compilerCalls: nat, scoped: seq<ScopedCall>, result: Result<T, Fault>)

  /** The arguments of `compileAndRunMeSomeCode`; a null symbol array is `None`. */
  datatype Request = Request(
    source: string,
    ctxClass: Option<TypeInfo>,
    outer: Obj,
    enclosingClass: Option<TypeInfo>,
    extSyms: Option<seq<Obj>>,
    offset: int)

  /** The fingerprint of a request (line 114). */
  function KeyOf(svc: Services, req: Request): string
  {
    svc.evalKey(req.source, req.enclosingClass, req.offset)
  }

  /** The fingerprint depends on the text, the immediate context class and the offset only:
      the instance, the symbol array and the outer context class do not change it. */
  lemma KeyIgnoresBindings(svc: Services, req: Request, ctxClass: Option<TypeInfo>, outer: Obj, extSyms: Option<seq<Obj>>)
    ensures KeyOf(svc, req.(ctxClass := ctxClass, outer := outer, extSyms := extSyms)) == KeyOf(svc, req)
  {
  }

  /** The compile-time symbol table: a fresh one without a context class, otherwise the one
      recovered for the context class at the offset. */
  function SymbolsOf(svc: Services, req: Request): (t: SymbolTable)
    ensures req.ctxClass.None? ==> t == FreshTable
    ensures req.ctxClass.Some? ==> t == svc.symbolTableAt(req.ctxClass.value, req.offset)
  {
    if req.ctxClass.None? then FreshTable else svc.symbolTableAt(req.ctxClass.value, req.offset)
  }

  /** The runtime symbol map; reading the length of a null array throws. */
  function RuntimeSymbolsOf(ext: Option<seq<Obj>>): (r: Result<SymbolMap, Fault>)
    ensures ext.None? ==> r == Failure(NullPointer)
    ensures ext.Some? ==> r == RuntimeNamesAndValues(ext.value)
    ensures r.Success? <==> ext.Some? && WellFormed(ext.value)
  {
    match ext
    case None => Failure(NullPointer)
    case Some(a) => RuntimeNamesAndValues(a)
  }

  /** The enclosing-class walk of a request; its loop condition dereferences the class, so a
      null class throws. */
  function WalkRequest(svc: Services, req: Request): (r: Result<Located, Fault>)
    ensures req.enclosingClass.None? ==> r == Failure(NullPointer)
    ensures req.enclosingClass.Some? ==> r == Walk(req.enclosingClass.value, req.outer, svc.thisZero)
    ensures r.Success? ==> !NeedsStep(r.value.cls)
    ensures r.Success? ==> OuterChain(svc.thisZero, req.outer, r.value.steps) == Some(r.value.outer)
  {
    if req.enclosingClass.None? then Failure(NullPointer)
    else Walk(req.enclosingClass.value, req.outer, svc.thisZero)
  }

  /** The body of the include-all block on a miss: a Gosu class must have a location to
      yield an anchor, the deepest node at the offset; any other type is parsed without one. */
  function CompileAt(svc: Services, key: string, source: string, cls: TypeInfo, symbols: SymbolTable, offset: int)
    : (r: Result<Program, Fault>)
    ensures r.Failure? <==> cls.isGosuClass && !cls.hasLocation
    ensures r.Failure? ==> r.error == NullPointer
    ensures r.Success? && !cls.isGosuClass ==> r.value == svc.parse(key, source, cls, symbols, None)
    ensures r.Success? && cls.isGosuClass ==>
              r.value == svc.parse(key, source, cls, symbols, svc.deepestLocation(cls, offset))
  {
    if !cls.isGosuClass then Success(svc.parse(key, source, cls, symbols, None))
    else if cls.hasLocation then Success(svc.parse(key, source, cls, symbols, svc.deepestLocation(cls, offset)))
    else Failure(NullPointer)
  }

  /** The cache-miss branch: symbol table, enclosing walk, compilation inside a balanced
      include-all scope, then caching of whatever program came back. */
  function CompileOnMiss(svc: Services, s: RunnerState, checksum: int, req: Request): (r: Step<(Program, Obj)>)
    requires s.cache.lastChecksum == checksum
    ensures r.state.includeAllDepth == s.includeAllDepth
    ensures r.compilerCalls <= 1
    ensures r.compilerCalls == 1 <==> r.result.Success?
    ensures r.scoped == (if r.compilerCalls == 1 then [Parse(s.includeAllDepth + 1)] else [])
    ensures r.result.Failure? ==> r.state == s
    ensures r.result.Success? ==>
              && WalkRequest(svc, req).Success?
              && var w := WalkRequest(svc, req).value;
                 var c := CompileAt(svc, KeyOf(svc, req), req.source, w.cls, SymbolsOf(svc, req), req.offset);
                 c.Success? && r.result.value == (c.value, w.outer)
    ensures r.result.Success? ==> r.state.cache == Put(s.cache, checksum, KeyOf(svc, req), r.result.value.0)
    ensures r.result.Failure? ==> WalkRequest(svc, req).Failure? || r.result.error == NullPointer
    ensures r.result.Success? <==> WalkRequest(svc, req).Success? && CompileAt(svc, KeyOf(svc, req), req.source, WalkRequest(svc, req).value.cls, SymbolsOf(svc, req), req.offset).Success?
    ensures WalkRequest(svc, req).Failure? ==> r.result == Failure(WalkRequest(svc, req).error)
    ensures WalkRequest(svc, req).Success? && CompileAt(svc, KeyOf(svc, req), req.source, WalkRequest(svc, req).value.cls, SymbolsOf(svc, req), req.offset).Failure? ==>
              r.result == Failure(CompileAt(svc, KeyOf(svc, req), req.source, WalkRequest(svc, req).value.cls, SymbolsOf(svc, req), req.offset).error)
  {
    match WalkRequest(svc, req)
    case Failure(e) => Step(s, 0, [], Failure(e))
    case Success(w) =>
      var inScope := PushIncludeAll(s);
      var compiled := CompileAt(svc, KeyOf(svc, req), req.source, w.cls, SymbolsOf(svc, req), req.offset);
      var s' := PopIncludeAll(inScope);
      match compiled
      case Failure(e) => Step(s', 0, [], Failure(e))
      case Success(p) =>
        Step(s'.(cache := Put(s'.cache, checksum, KeyOf(svc, req), p)), 1, [Parse(inScope.includeAllDepth)],
             Success((p, w.outer)))
  }

  /** The program to run and the instance to bind it to: from the cache on a hit, compiled
      on a miss. As written, a hit reuses the request's instance without walking it out;
      `walkOnHit` selects the walk on both paths. */
  function Fetch(svc: Services, s: RunnerState, checksum: int, req: Request, walkOnHit: bool): (r: Step<(Program, Obj)>)
    ensures r.state.includeAllDepth == s.includeAllDepth
    ensures r.state.cache.lastChecksum == checksum
    ensures Get(s.cache, checksum, KeyOf(svc, req)).1.Some? ==>
              && r.compilerCalls == 0 && r.scoped == []
              && r.state.cache == ClearOnChecksumChange(s.cache, checksum)
              && (r.result.Success? ==> r.result.value.0 == Get(s.cache, checksum, KeyOf(svc, req)).1.value)
              && (!walkOnHit ==> r.result == Success((Get(s.cache, checksum, KeyOf(svc, req)).1.value, req.outer)))
              && (walkOnHit ==> (r.result.Success? <==> WalkRequest(svc, req).Success?))
              && (walkOnHit && r.result.Success? ==> r.result.value.1 == WalkRequest(svc, req).value.outer)
              && (walkOnHit && WalkRequest(svc, req).Failure? ==> r.result == Failure(WalkRequest(svc, req).error))
    ensures Get(s.cache, checksum, KeyOf(svc, req)).1.None? ==>
              r == CompileOnMiss(svc, s.(cache := Get(s.cache, checksum, KeyOf(svc, req)).0), checksum, req)
  {
    var (c', hit) := Get(s.cache, checksum, KeyOf(svc, req));
    var s' := s.(cache := c');
    match hit
    case None => CompileOnMiss(svc, s', checksum, req)
    case Some(p) =>
      if !walkOnHit then Step(s', 0, [], Success((p, req.outer)))
      else match WalkRequest(svc, req)
        case Failure(e) => Step(s', 0, [], Failure(e))
        case Success(w) => Step(s', 0, [], Success((p, w.outer)))
  }

  /** Construction and evaluation of a valid program. */
  function Invoke(svc: Services, p: Program, outer: Obj, env: SymbolMap): (r: Result<Obj, Fault>)
    ensures ConstructorArgs(p, outer, env).Failure? ==> r == Failure(ConstructorArgs(p, outer, env).error)
    ensures (ConstructorArgs(p, outer, env).Success? && |ConstructorArgs(p, outer, env).value| != |p.ctorParams|)
              ==> r == Failure(IllegalArgument)
    ensures (ConstructorArgs(p, outer, env).Success? && |ConstructorArgs(p, outer, env).value| == |p.ctorParams|)
              ==> match svc.evaluate(p, ConstructorArgs(p, outer, env).value, env)
                  case Success(v) => r == Success(v)
                  case Failure(cause) => r == Failure(Execution(cause))
  {
    match ConstructorArgs(p, outer, env)
    case Failure(e) => Failure(e)
    case Success(args) =>
      if |args| != |p.ctorParams| then Failure(IllegalArgument)
      else match svc.evaluate(p, args, env)
        case Success(v) => Success(v)
        case Failure(cause) => Failure(Execution(cause))
  }

  /** One evaluation: fetch or compile, build the symbol map, reject an invalid program
      inside an include-all scope, then construct and evaluate. */
  function Flow(svc: Services, s: RunnerState, checksum: int, req: Request, walkOnHit: bool): (o: Step<Obj>)
    ensures o.state.includeAllDepth == s.includeAllDepth
    ensures o.state.cache.lastChecksum == checksum
    ensures o.compilerCalls <= 1
    ensures forall i :: 0 <= i < |o.scoped| ==> o.scoped[i].depth == s.includeAllDepth + 1
    ensures o.compilerCalls == 1 <==> Parse(s.includeAllDepth + 1) in o.scoped
    ensures o.result.Success? ==> ValidityCheck(s.includeAllDepth + 1) in o.scoped
    ensures o.result.Failure? && o.result.error.ParseResults? ==> ValidityCheck(s.includeAllDepth + 1) in o.scoped
    ensures Get(s.cache, checksum, KeyOf(svc, req)).1.Some? ==>
              o.compilerCalls == 0 && o.state.cache == ClearOnChecksumChange(s.cache, checksum)
    ensures Fetch(svc, s, checksum, req, walkOnHit).result.Failure? ==>
              o.result == Failure(Fetch(svc, s, checksum, req, walkOnHit).result.error)
    ensures Fetch(svc, s, checksum, req, walkOnHit).result.Success? && RuntimeSymbolsOf(req.extSyms).Failure? ==>
              o.result == Failure(RuntimeSymbolsOf(req.extSyms).error)
  {
    var fetched := Fetch(svc, s, checksum, req, walkOnHit);
    match fetched.result
    case Failure(e) => Step(fetched.state, fetched.compilerCalls, fetched.scoped, Failure(e))
    case Success((p, outer)) =>
      match RuntimeSymbolsOf(req.extSyms)
      case Failure(e) => Step(fetched.state, fetched.compilerCalls, fetched.scoped, Failure(e))
      case Success(env) =>
        var inScope := PushIncludeAll(fetched.state);
        var scoped := fetched.scoped + [ValidityCheck(inScope.includeAllDepth)];
        var s' := PopIncludeAll(inScope);
        if !p.valid then Step(s', fetched.compilerCalls, scoped, Failure(ParseResults(p.issues)))
        else Step(s', fetched.compilerCalls, scoped, Invoke(svc, p, outer, env))
  }

  /** `compileAndRunMeSomeCode` as written. */
  function CompileAndRun(svc: Services, s: RunnerState, checksum: int, req: Request): (o: Step<Obj>)
    ensures o.state.includeAllDepth == s.includeAllDepth
    ensures Get(s.cache, checksum, KeyOf(svc, req)).1.Some? ==> o.compilerCalls == 0
  {
    Flow(svc, s, checksum, req, false)
  }

  /** `compileAndRunMeSomeCode` with the enclosing walk done on a cache hit as well. */
  function CompileAndRunWalkingOnHit(svc: Services, s: RunnerState, checksum: int, req: Request): (o: Step<Obj>)
    ensures o.state.includeAllDepth == s.includeAllDepth
    ensures Get(s.cache, checksum, KeyOf(svc, req)).1.Some? ==> o.compilerCalls == 0
  {
    Flow(svc, s, checksum, req, true)
  }

  /** The dispatch of `_runMeSomeCode` over either flow: resolve the two context names, then
      run with the Gosu context class and source position, or, when the context is not a
      Gosu class, with neither. */
  function Dispatch(svc: Services, lookup: string -> Option<TypeInfo>, s: RunnerState, checksum: int,
                    outer: Obj, extSyms: Option<seq<Obj>>, text: string,
                    classContext: string, contextElementClass: string, sourcePosition: int,
                    walkOnHit: bool): (o: Step<Obj>)
    ensures lookup(classContext).None? ==> o == Step(s, 0, [], Failure(UnresolvedType(classContext)))
    ensures lookup(classContext).Some? && lookup(contextElementClass).None? ==>
              o == Step(s, 0, [], Failure(UnresolvedType(contextElementClass)))
    ensures lookup(classContext).Some? && lookup(classContext).value.isGosuClass
            && lookup(contextElementClass).Some? && !lookup(contextElementClass).value.isGosuClass ==>
              o == Step(s, 0, [], Failure(NotGosuClass(contextElementClass)))
    ensures lookup(classContext).Some? && lookup(classContext).value.isGosuClass
            && lookup(contextElementClass).Some? && lookup(contextElementClass).value.isGosuClass ==>
              o == Flow(svc, s, checksum, Request(text, lookup(classContext), outer, lookup(contextElementClass),
                                                  extSyms, sourcePosition), walkOnHit)
    ensures lookup(classContext).Some? && !lookup(classContext).value.isGosuClass
            && lookup(contextElementClass).Some? ==>
              o == Flow(svc, s, checksum, Request(text, None, outer, lookup(contextElementClass), extSyms, 0), walkOnHit)
    ensures o.state.includeAllDepth == s.includeAllDepth
  {
    match lookup(classContext)
    case None => Step(s, 0, [], Failure(UnresolvedType(classContext)))
    case Some(ctx) =>
      match lookup(contextElementClass)
      case None => Step(s, 0, [], Failure(UnresolvedType(contextElementClass)))
      case Some(imm) =>
        if ctx.isGosuClass then
          if !imm.isGosuClass then Step(s, 0, [], Failure(NotGosuClass(contextElementClass)))
          else Flow(svc, s, checksum, Request(text, Some(ctx), outer, Some(imm), extSyms, sourcePosition), walkOnHit)
        else Flow(svc, s, checksum, Request(text, None, outer, Some(imm), extSyms, 0), walkOnHit)
  }

  /** `_runMeSomeCode` as written: it calls `compileAndRunMeSomeCode`. */
  function RunMeSomeCode(svc: Services, lookup: string -> Option<TypeInfo>, s: RunnerState, checksum: int,
                         outer: Obj, extSyms: Option<seq<Obj>>, text: string,
                         classContext: string, contextElementClass: string, sourcePosition: int): (o: Step<Obj>)
    ensures lookup(classContext).None? ==> o == Step(s, 0, [], Failure(UnresolvedType(classContext)))
    ensures lookup(classContext).Some? && lookup(contextElementClass).None? ==>
              o == Step(s, 0, [], Failure(UnresolvedType(contextElementClass)))
    ensures lookup(classContext).Some? && lookup(classContext).value.isGosuClass
            && lookup(contextElementClass).Some? && !lookup(contextElementClass).value.isGosuClass ==>
              o == Step(s, 0, [], Failure(NotGosuClass(contextElementClass)))
    ensures lookup(classContext).Some? && lookup(classContext).value.isGosuClass
            && lookup(contextElementClass).Some? && lookup(contextElementClass).value.isGosuClass ==>
              o == CompileAndRun(svc, s, checksum, Request(text, lookup(classContext), outer, lookup(contextElementClass),
                                                          extSyms, sourcePosition))
    ensures lookup(classContext).Some? && !lookup(classContext).value.isGosuClass
            && lookup(contextElementClass).Some? ==>
              o == CompileAndRun(svc, s, checksum, Request(text, None, outer, lookup(contextElementClass), extSyms, 0))
    ensures o.state.includeAllDepth == s.includeAllDepth
  {
    Dispatch(svc, lookup, s, checksum, outer, extSyms, text, classContext, contextElementClass, sourcePosition, false)
  }

  /** `_runMeSomeCode` over the flow that also walks the enclosing instance on a cache hit. */
  function RunMeSomeCodeWalkingOnHit(svc: Services, lookup: string -> Option<TypeInfo>, s: RunnerState, checksum: int,
                                     outer: Obj, extSyms: Option<seq<Obj>>, text: string,
                                     classContext: string, contextElementClass: string, sourcePosition: int): (o: Step<Obj>)
    ensures lookup(classContext).None? ==> o == Step(s, 0, [], Failure(UnresolvedType(classContext)))
    ensures lookup(classContext).Some? && lookup(contextElementClass).None? ==>
              o == Step(s, 0, [], Failure(UnresolvedType(contextElementClass)))
    ensures lookup(classContext).Some? && lookup(classContext).value.isGosuClass
            && lookup(contextElementClass).Some? && !lookup(contextElementClass).value.isGosuClass ==>
              o == Step(s, 0, [], Failure(NotGosuClass(contextElementClass)))
    ensures lookup(classContext).Some? && lookup(classContext).value.isGosuClass
            && lookup(contextElementClass).Some? && lookup(contextElementClass).value.isGosuClass ==>
              o == CompileAndRunWalkingOnHit(svc, s, checksum, Request(text, lookup(classContext), outer,
                                                                      lookup(contextElementClass), extSyms, sourcePosition))
    ensures lookup(classContext).Some? && !lookup(classContext).value.isGosuClass
            && lookup(contextElementClass).Some? ==>
              o == CompileAndRunWalkingOnHit(svc, s, checksum, Request(text, None, outer, lookup(contextElementClass), extSyms, 0))
    ensures o.state.includeAllDepth == s.includeAllDepth
  {
    Dispatch(svc, lookup, s, checksum, outer, extSyms, text, classContext, contextElementClass, sourcePosition, true)
  }
}

=== FILE: code_runner_properties.dfy ===
/**
  Properties of the compile-or-reuse flow across one or two evaluations: what a miss leaves in
  the cache, when a second evaluation is served from it, what a checksum change does, and the
  instance a cache hit binds the program to.
 */
module CodeRunnerProperties {
  import opened Wrappers
  import opened Runtime
  import opened ProgramCache
  import opened RuntimeSymbols
  import opened ArgumentShape
  import opened EnclosingWalk
  import opened CodeRunner

  /** On a miss the parser is called at most once, and it was called exactly when the
      fingerprint is in the cache afterwards; a program cached invalid makes the evaluation
      fail with its parse issues unless the symbol array failed first. */
  lemma MissCachesCompiledProgram(svc: Services, s: RunnerState, checksum: int, req: Request, walkOnHit: bool)
    requires Get(s.cache, checksum, KeyOf(svc, req)).1.None?
    ensures var o := Flow(svc, s, checksum, req, walkOnHit);
      && (o.compilerCalls == 1 <==> KeyOf(svc, req) in o.state.cache.entries)
      && (o.compilerCalls == 1 && !o.state.cache.entries[KeyOf(svc, req)].valid ==>
            o.result.Failure?
            && (o.result.error == ParseResults(o.state.cache.entries[KeyOf(svc, req)].issues)
                || RuntimeSymbolsOf(req.extSyms).Failure?))
  {
    var key := KeyOf(svc, req);
    var s' := s.(cache := Get(s.cache, checksum, key).0);
    assert key !in s'.cache.entries;
    var fetched := Fetch(svc, s, checksum, req, walkOnHit);
    assert fetched == CompileOnMiss(svc, s', checksum, req);
  }

  /** A program found in the cache that is invalid is never run: the evaluation fails with its
      parse issues, or earlier on the symbol array. */
  lemma InvalidCachedProgramRaises(svc: Services, s: RunnerState, checksum: int, req: Request)
    requires Get(s.cache, checksum, KeyOf(svc, req)).1.Some?
    requires !Get(s.cache, checksum, KeyOf(svc, req)).1.value.valid
    ensures var o := CompileAndRun(svc, s, checksum, req);
      && o.compilerCalls == 0
      && o.result.Failure?
      && (o.result.error == ParseResults(Get(s.cache, checksum, KeyOf(svc, req)).1.value.issues)
          || RuntimeSymbolsOf(req.extSyms).Failure?)
  {
  }

  /** An evaluation that compiled leaves its program cached: repeating it under the same
      checksum does not call the parser. */
  lemma SecondCallServedFromCache(svc: Services, s: RunnerState, checksum: int, req: Request, walkOnHit: bool)
    requires Flow(svc, s, checksum, req, walkOnHit).compilerCalls == 1
    ensures Flow(svc, Flow(svc, s, checksum, req, walkOnHit).state, checksum, req, walkOnHit).compilerCalls == 0
  {
    MissCachesCompiledProgram(svc, s, checksum, req, walkOnHit);
  }

  /** The cached program of an evaluation that compiled is the one the parser returned. */
  lemma CompiledRunCachesItsProgram(svc: Services, s: RunnerState, checksum: int, req: Request, walkOnHit: bool)
    requires Fetch(svc, s, checksum, req, walkOnHit).compilerCalls == 1
    ensures var f := Fetch(svc, s, checksum, req, walkOnHit);
      && f.result.Success?
      && Get(Flow(svc, s, checksum, req, walkOnHit).state.cache, checksum, KeyOf(svc, req)).1 == Some(f.result.value.0)
      && WalkRequest(svc, req).Success?
      && f.result.value.1 == WalkRequest(svc, req).value.outer
  {
  }

  /** With the walk done on both paths, a repeated evaluation under the same checksum gives
      the same outcome as the one that compiled. */
  lemma WalkingOnHitRepeatsOutcome(svc: Services, s: RunnerState, checksum: int, req: Request)
    requires CompileAndRunWalkingOnHit(svc, s, checksum, req).compilerCalls == 1
    ensures var first := CompileAndRunWalkingOnHit(svc, s, checksum, req);
            CompileAndRunWalkingOnHit(svc, first.state, checksum, req).result == first.result
  {
    var first := Flow(svc, s, checksum, req, true);
    var f := Fetch(svc, s, checksum, req, true);
    CompiledRunCachesItsProgram(svc, s, checksum, req, true);
    var g := Fetch(svc, first.state, checksum, req, true);
    assert g.result == f.result;
  }

  /** As written, a repeated evaluation gives the same outcome when the context class needed
      no outward step, so the instance was not rebound on the first run either. */
  lemma AsWrittenRepeatsOutcomeWithoutNesting(svc: Services, s: RunnerState, checksum: int, req: Request)
    requires CompileAndRun(svc, s, checksum, req).compilerCalls == 1
    requires req.enclosingClass.Some? && !NeedsStep(req.enclosingClass.value)
    ensures var first := CompileAndRun(svc, s, checksum, req);
            CompileAndRun(svc, first.state, checksum, req).result == first.result
  {
    var first := Flow(svc, s, checksum, req, false);
    var f := Fetch(svc, s, checksum, req, false);
    CompiledRunCachesItsProgram(svc, s, checksum, req, false);
    var g := Fetch(svc, first.state, checksum, req, false);
    assert g.result == f.result;
  }

  /** A changed checksum makes any state behave like a cold start with an empty cache. */
  lemma ChecksumChangeIsColdStart(svc: Services, s: RunnerState, checksum: int, req: Request, walkOnHit: bool)
    requires s.cache.lastChecksum != checksum
    ensures Flow(svc, s, checksum, req, walkOnHit)
         == Flow(svc, RunnerState(Cache(map[], checksum), s.includeAllDepth), checksum, req, walkOnHit)
  {
  }

  /** When the context is not a Gosu class the source position is ignored. */
  lemma NonGosuContextIgnoresPosition(svc: Services, lookup: string -> Option<TypeInfo>, s: RunnerState,
                                      checksum: int, outer: Obj, extSyms: Option<seq<Obj>>, text: string,
                                      classContext: string, contextElementClass: string, p1: int, p2: int)
    requires lookup(classContext).Some? && !lookup(classContext).value.isGosuClass
    ensures RunMeSomeCode(svc, lookup, s, checksum, outer, extSyms, text, classContext, contextElementClass, p1)
         == RunMeSomeCode(svc, lookup, s, checksum, outer, extSyms, text, classContext, contextElementClass, p2)
  {
  }

  /** On a miss whose walk and compilation succeed the parser runs once and its program is
      cached, valid or not; an invalid one then fails with its parse issues once the symbol
      array has been built. */
  lemma MissCompilesAndCachesEvenInvalid(svc: Services, s: RunnerState, checksum: int, req: Request, walkOnHit: bool)
    requires Get(s.cache, checksum, KeyOf(svc, req)).1.None?
    requires WalkRequest(svc, req).Success?
    requires CompileAt(svc, KeyOf(svc, req), req.source, WalkRequest(svc, req).value.cls, SymbolsOf(svc, req), req.offset).Success?
    ensures Flow(svc, s, checksum, req, walkOnHit).compilerCalls == 1
    ensures Get(Flow(svc, s, checksum, req, walkOnHit).state.cache, checksum, KeyOf(svc, req)).1
         == Some(CompileAt(svc, KeyOf(svc, req), req.source, WalkRequest(svc, req).value.cls, SymbolsOf(svc, req), req.offset).value)
    ensures !CompileAt(svc, KeyOf(svc, req), req.source, WalkRequest(svc, req).value.cls, SymbolsOf(svc, req), req.offset).value.valid && RuntimeSymbolsOf(req.extSyms).Success? ==>
              Flow(svc, s, checksum, req, walkOnHit).result == Failure(ParseResults(CompileAt(svc, KeyOf(svc, req), req.source, WalkRequest(svc, req).value.cls, SymbolsOf(svc, req), req.offset).value.issues))
  {
  }

  /** On a miss, an evaluation whose walk and compilation succeed, with a valid program and a
      usable symbol array, constructs the freshly compiled program with the walked instance. */
  lemma MissRunsCompiledProgram(svc: Services, s: RunnerState, checksum: int, req: Request, walkOnHit: bool)
    requires Get(s.cache, checksum, KeyOf(svc, req)).1.None?
    requires WalkRequest(svc, req).Success?
    requires CompileAt(svc, KeyOf(svc, req), req.source, WalkRequest(svc, req).value.cls, SymbolsOf(svc, req), req.offset).Success?
    requires CompileAt(svc, KeyOf(svc, req), req.source, WalkRequest(svc, req).value.cls, SymbolsOf(svc, req), req.offset).value.valid
    requires RuntimeSymbolsOf(req.extSyms).Success?
    ensures Flow(svc, s, checksum, req, walkOnHit).result
         == Invoke(svc, CompileAt(svc, KeyOf(svc, req), req.source, WalkRequest(svc, req).value.cls, SymbolsOf(svc, req), req.offset).value,
                   WalkRequest(svc, req).value.outer, RuntimeSymbolsOf(req.extSyms).value)
  {
  }

  /** As written, a hit with a valid cached program and a usable symbol array constructs the
      program with the request's own instance, whatever the context class. */
  lemma AsWrittenHitBindsRequestInstance(svc: Services, s: RunnerState, checksum: int, req: Request)
    requires Get(s.cache, checksum, KeyOf(svc, req)).1.Some?
    requires Get(s.cache, checksum, KeyOf(svc, req)).1.value.valid
    requires RuntimeSymbolsOf(req.extSyms).Success?
    ensures CompileAndRun(svc, s, checksum, req).result
         == Invoke(svc, Get(s.cache, checksum, KeyOf(svc, req)).1.value, req.outer, RuntimeSymbolsOf(req.extSyms).value)
  {
  }

  /** With the walk on both paths, the same hit constructs the program with the walked
      instance, the one a miss would have used. */
  lemma WalkingOnHitBindsWalkedInstance(svc: Services, s: RunnerState, checksum: int, req: Request)
    requires Get(s.cache, checksum, KeyOf(svc, req)).1.Some?
    requires Get(s.cache, checksum, KeyOf(svc, req)).1.value.valid
    requires RuntimeSymbolsOf(req.extSyms).Success?
    requires WalkRequest(svc, req).Success?
    ensures CompileAndRunWalkingOnHit(svc, s, checksum, req).result
         == Invoke(svc, Get(s.cache, checksum, KeyOf(svc, req)).1.value, WalkRequest(svc, req).value.outer,
                   RuntimeSymbolsOf(req.extSyms).value)
  {
  }

  // A closure scenario: class Outer has a location; its block class has none.

  const OuterClass := TypeInfo("Outer", true, true, None)
  const BlockClass := TypeInfo("Outer.block_0_", true, false, Some(OuterClass))

  /** Services for the scenario: heap object 1 is the block instance, whose `this$0` is the
      Outer instance 0. The compiled program's constructor takes an `Outer`, so constructing
      it with anything but the Outer instance is an argument type mismatch; otherwise the
      snippet evaluates to the instance it was constructed with. */
  function ClosureServices(): Services
  {
    Services(
      (src, cls, off) => "block-key",
      (t, off) => FreshTable,
      (t, off) => None,
      (key, src, t, table, anchor) => Program(true, [], false, ["Outer"]),
      id => if id == 1 then Some(Ref(0)) else None,
      (p: Program, args: seq<Arg>, env: SymbolMap) =>
        if |args| > 0 && args[0] == Instance(Ref(0)) then Success(Ref(0)) else Failure("argument type mismatch"))
  }

  function ClosureRequest(): Request
  {
    Request("this", Some(OuterClass), Ref(1), Some(BlockClass), Some([]), 7)
  }

  /** The first evaluation in the closure misses, walks from the block class to Outer,
      compiles once, caches the program and evaluates to the Outer instance. */
  lemma ClosureFirstRunCompilesAndCaches(walkOnHit: bool)
    ensures var first := Flow(ClosureServices(), RunnerState(Initial(), 0), 0, ClosureRequest(), walkOnHit);
      && first.compilerCalls == 1
      && first.result == Success(Ref(0))
      && Get(first.state.cache, 0, "block-key").1 == Some(Program(true, [], false, ["Outer"]))
  {
    var svc := ClosureServices();
    assert Walk(BlockClass, Ref(1), svc.thisZero) == Success(Located(OuterClass, Ref(0), 1));
    assert RuntimeNamesAndValues([]) == Success(map[]);
  }

  /** As written, the second evaluation in a closure is served from the cache and constructs
      the program with the block instance instead of the Outer instance the first one used,
      so construction fails with an argument type mismatch where the first evaluation
      succeeded. */
  lemma AsWrittenHitRebindsToClosureInstance()
    ensures var first := CompileAndRun(ClosureServices(), RunnerState(Initial(), 0), 0, ClosureRequest());
      && first.compilerCalls == 1
      && first.result == Success(Ref(0))
      && CompileAndRun(ClosureServices(), first.state, 0, ClosureRequest()).result
         == Failure(Execution("argument type mismatch"))
  {
    var svc := ClosureServices();
    var req := ClosureRequest();
    ClosureFirstRunCompilesAndCaches(false);
    var first := CompileAndRun(svc, RunnerState(Initial(), 0), 0, req);
    assert RuntimeSymbolsOf(req.extSyms) == Success(map[]) by {
      assert RuntimeNamesAndValues([]) == Success(map[]);
    }
    AsWrittenHitBindsRequestInstance(svc, first.state, 0, req);
    ClosureBlockInstanceRejected();
  }

  /** The program compiled for Outer, constructed with the block instance, is rejected. */
  lemma ClosureBlockInstanceRejected()
    ensures Invoke(ClosureServices(), Program(true, [], false, ["Outer"]), Ref(1), map[])
         == Failure(Execution("argument type mismatch"))
  {
    assert ConstructorArgs(Program(true, [], false, ["Outer"]), Ref(1), map[]) == Success([Instance(Ref(1))]);
  }

  /** With the walk on both paths, both evaluations bind the Outer instance. */
  lemma WalkingOnHitKeepsOuterInstance()
    ensures var first := CompileAndRunWalkingOnHit(ClosureServices(), RunnerState(Initial(), 0), 0, ClosureRequest());
      && first.compilerCalls == 1
      && first.result == Success(Ref(0))
      && CompileAndRunWalkingOnHit(ClosureServices(), first.state, 0, ClosureRequest()).result == Success(Ref(0))
  {
    var svc := ClosureServices();
    assert Walk(OuterClass, Ref(0), svc.thisZero) == Success(Located(OuterClass, Ref(0), 0));
    assert Walk(BlockClass, Ref(1), svc.thisZero) == Success(Located(OuterClass, Ref(0), 1));
    assert RuntimeNamesAndValues([]) == Success(map[]);
  }
}

=== FILE: enclosing_walk.dfy ===
/**
  The enclosing-class walk done before compiling: a Gosu class with an enclosing type but no
  recorded source location (a closure, say) is replaced by its enclosing type, and the
  enclosing instance by the value of its `this$0` field, one level at a time.
 */
module EnclosingWalk {
  import opened Wrappers
  import opened Runtime

  /** The loop condition: an enclosing type exists, the class is a Gosu class, and its class
      statement has no location. */
  predicate NeedsStep(t: TypeInfo)
    ensures NeedsStep(t) ==> NestingDepth(t) > 0 && NestingDepth(t.enclosing.value) < NestingDepth(t)
  {
    t.enclosing.Some? && t.isGosuClass && !t.hasLocation
  }

  /** The reflective read of `this$0` on an object, given the field's value per heap object.
      Null (NullPointerException) and strings or boxed integers (no such field) fail. */
  function OuterStep(thisZero: nat -> Option<Obj>, o: Obj): (r: Option<Obj>)
    ensures r.Some? ==> o.Ref? && thisZero(o.id) == r
    ensures o.Ref? ==> r == thisZero(o.id)
  {
    if o.Ref? then thisZero(o.id) else None
  }

  /** The type `n` levels out from `t`, if the chain is that long. */
  function Ancestor(t: TypeInfo, n: nat): (r: Option<TypeInfo>)
    ensures r.Some? <==> n <= NestingDepth(t)
  {
    if n == 0 then Some(t)
    else match t.enclosing
      case None => None
      case Some(e) => Ancestor(e, n - 1)
  }

  /** The object reached from `o` by `n` reads of `this$0`, if none of them fails. */
  function OuterChain(thisZero: nat -> Option<Obj>, o: Obj, n: nat): Option<Obj>
    decreases n
  {
    if n == 0 then Some(o)
    else match OuterStep(thisZero, o)
      case None => None
      case Some(o') => OuterChain(thisZero, o', n - 1)
  }

  /** The loop condition holds at level `i` of the chain above `t`. */
  ghost predicate NeedsStepAt(t: TypeInfo, i: nat)
  {
    Ancestor(t, i).Some? && NeedsStep(Ancestor(t, i).value)
  }

  /** Reference definition of where the walk stops: the first level of the chain at which
      the loop condition fails. */
  ghost function StopLevel(t: TypeInfo): nat
    decreases t
  {
    if !NeedsStep(t) then 0 else 1 + StopLevel(t.enclosing.value)
  }

  /** The class the walk stops at, the instance walked alongside it, and the number of steps. */
  datatype Located = Located(cls: TypeInfo, outer: Obj, steps: nat)

  /** The `while` loop of the walk. */
  function Walk(t: TypeInfo, outer: Obj, thisZero: nat -> Option<Obj>): (r: Result<Located, Fault>)
    ensures r.Success? ==> !NeedsStep(r.value.cls)
    ensures r.Success? ==> Ancestor(t, r.value.steps) == Some(r.value.cls)
    ensures r.Success? ==> OuterChain(thisZero, outer, r.value.steps) == Some(r.value.outer)
    ensures r.Success? ==> forall i: nat :: i < r.value.steps ==> NeedsStepAt(t, i)
    ensures r.Failure? ==> r.error == OuterStepFailed
    decreases t
  {
    if !NeedsStep(t) then Success(Located(t, outer, 0))
    else match OuterStep(thisZero, outer)
      case None => Failure(OuterStepFailed)
      case Some(o') =>
        match Walk(t.enclosing.value, o', thisZero)
        case Failure(e) => Failure(e)
        case Success(l) =>
          assert forall i: nat :: 0 < i <= l.steps ==> NeedsStepAt(t, i) == NeedsStepAt(t.enclosing.value, i - 1);
          assert NeedsStepAt(t, 0);
          Success(l.(steps := l.steps + 1))
  }

  /** Walking again from where a walk stopped takes no step. */
  lemma WalkStopsAtFixpoint(t: TypeInfo, outer: Obj, thisZero: nat -> Option<Obj>)
    requires Walk(t, outer, thisZero).Success?
    ensures var l := Walk(t, outer, thisZero).value;
            Walk(l.cls, l.outer, thisZero) == Success(Located(l.cls, l.outer, 0))
  {
  }

  /** When every `this$0` read along the chain succeeds, the walk succeeds. */
  lemma {:induction false} WalkSucceedsOnIntactOuterChain(t: TypeInfo, outer: Obj, thisZero: nat -> Option<Obj>)
    requires OuterChain(thisZero, outer, NestingDepth(t)).Some?
    ensures Walk(t, outer, thisZero).Success?
    decreases t
  {
    if NeedsStep(t) {
      var o' := OuterStep(thisZero, outer).value;
      WalkSucceedsOnIntactOuterChain(t.enclosing.value, o', thisZero);
    }
  }

  /** The loop condition holds at every level from `t` up to `n` levels out. */
  ghost predicate ConditionHoldsUpTo(t: TypeInfo, n: nat)
  {
    forall i: nat :: i <= n ==> NeedsStepAt(t, i)
  }

  /** The walk reached level `n`, where the `this$0` read of the instance reached so far failed. */
  ghost predicate BrokenAt(t: TypeInfo, outer: Obj, thisZero: nat -> Option<Obj>, n: nat)
  {
    && n < NestingDepth(t)
    && ConditionHoldsUpTo(t, n)
    && OuterChain(thisZero, outer, n).Some?
    && OuterChain(thisZero, outer, n + 1).None?
  }

  lemma ConditionHoldsOneMore(t: TypeInfo, n: nat)
    requires NeedsStep(t) && ConditionHoldsUpTo(t.enclosing.value, n)
    ensures ConditionHoldsUpTo(t, n + 1)
  {
    forall i: nat | i <= n + 1
      ensures NeedsStepAt(t, i)
    {
      if i > 0 {
        assert Ancestor(t, i) == Ancestor(t.enclosing.value, i - 1);
        assert NeedsStepAt(t.enclosing.value, i - 1);
      }
    }
  }

  /** The walk fails only at a level it actually reached: the loop condition held at that
      level and every level below it, the `this$0` reads up to it succeeded, and the read of
      the instance reached there failed. */
  lemma {:induction false} WalkFailsOnlyOnBrokenOuterChain(t: TypeInfo, outer: Obj, thisZero: nat -> Option<Obj>)
    requires Walk(t, outer, thisZero).Failure?
    ensures exists n: nat :: BrokenAt(t, outer, thisZero, n)
    decreases t
  {
    assert NeedsStep(t);
    var e := t.enclosing.value;
    match OuterStep(thisZero, outer)
    case None =>
      assert OuterChain(thisZero, outer, 1).None?;
      assert ConditionHoldsUpTo(t, 0);
      assert BrokenAt(t, outer, thisZero, 0);
    case Some(o') =>
      WalkFailsOnlyOnBrokenOuterChain(e, o', thisZero);
      var n: nat :| BrokenAt(e, o', thisZero, n);
      ConditionHoldsOneMore(t, n);
      assert OuterChain(thisZero, outer, n + 1) == OuterChain(thisZero, o', n);
      assert OuterChain(thisZero, outer, n + 2) == OuterChain(thisZero, o', n + 1);
      assert BrokenAt(t, outer, thisZero, n + 1);
  }

  /** The walk succeeds exactly when the `this$0` chain reaches the first level at which the
      loop condition fails, and then it has taken exactly that many steps. */
  lemma {:induction false} WalkSucceedsIffChainReachesStop(t: TypeInfo, outer: Obj, thisZero: nat -> Option<Obj>)
    ensures Walk(t, outer, thisZero).Success? <==> OuterChain(thisZero, outer, StopLevel(t)).Some?
    ensures Walk(t, outer, thisZero).Success? ==>
              Walk(t, outer, thisZero).value.steps == StopLevel(t)
              && Walk(t, outer, thisZero).value.outer == OuterChain(thisZero, outer, StopLevel(t)).value
    decreases t
  {
    if NeedsStep(t) {
      match OuterStep(thisZero, outer)
      case None =>
      case Some(o') =>
        WalkSucceedsIffChainReachesStop(t.enclosing.value, o', thisZero);
    }
  }
}

=== FILE: program_cache.dfy ===
/**
  The fingerprint cache: a map from an evaluation fingerprint to a compiled program,
  together with the type-system refresh checksum last seen by the cache. Every access
  first compares that checksum with the current one and, on a change, drops every entry.
 */
module ProgramCache {
  import opened Wrappers

  datatype Cache<P> = Cache(entries: map<string, P>, lastChecksum: int)

  /** The state at class load: an empty map and the default checksum 0. */
  const InitialChecksum: int := 0

  function Initial<P>(): (c: Cache<P>)
    ensures c.entries == map[] && c.lastChecksum == InitialChecksum
  {
    Cache(map[], InitialChecksum)
  }

  /** `clearCacheOnChecksumChange`: a changed checksum empties the map and is recorded. */
  function ClearOnChecksumChange<P>(c: Cache<P>, current: int): (r: Cache<P>)
    ensures r.lastChecksum == current
    ensures c.lastChecksum == current ==> r == c
    ensures c.lastChecksum != current ==> r.entries == map[]
  {
    if c.lastChecksum != current then Cache(map[], current) else c
  }

  /** `getCachedProgram`: the lookup after the checksum test, with the cache it leaves. */
  function Get<P>(c: Cache<P>, current: int, key: string): (r: (Cache<P>, Option<P>))
    ensures r.0 == ClearOnChecksumChange(c, current)
    ensures r.1.Some? <==> c.lastChecksum == current && key in c.entries
    ensures r.1.Some? ==> r.1.value == c.entries[key]
  {
    var c' := ClearOnChecksumChange(c, current);
    (c', if key in c'.entries then Some(c'.entries[key]) else None)
  }

  /** `cacheProgram`: the store after the checksum test. */
  function Put<P>(c: Cache<P>, current: int, key: string, p: P): (r: Cache<P>)
    ensures r.lastChecksum == current
    ensures key in r.entries && r.entries[key] == p
    ensures forall k :: k in r.entries && k != key ==>
              c.lastChecksum == current && k in c.entries && r.entries[k] == c.entries[k]
    ensures c.lastChecksum == current ==> r.entries.Keys == c.entries.Keys + {key}
    ensures c.lastChecksum != current ==> r.entries.Keys == {key}
  {
    var c' := ClearOnChecksumChange(c, current);
    c'.(entries := c'.entries[key := p])
  }

  /** A put followed by a get of the same key under the same checksum returns what was put. */
  lemma GetAfterPut<P>(c: Cache<P>, current: int, key: string, p: P)
    ensures Get(Put(c, current, key, p), current, key).1 == Some(p)
  {
  }

  /** A second put of the same key under the same checksum replaces the first. */
  lemma PutLastWriteWins<P>(c: Cache<P>, current: int, key: string, p: P, p': P)
    ensures Put(Put(c, current, key, p), current, key, p') == Put(c, current, key, p')
    ensures Get(Put(Put(c, current, key, p), current, key, p'), current, key).1 == Some(p')
  {
  }

  /** A put under the same checksum leaves every other entry as it was. */
  lemma PutKeepsOtherKeys<P>(c: Cache<P>, current: int, key: string, other: string, p: P)
    requires c.lastChecksum == current && other != key
    ensures Get(Put(c, current, key, p), current, other).1 == Get(c, current, other).1
  {
  }

  /** Under a changed checksum every get misses, and the cache left behind is empty and
      records the new checksum. */
  lemma ChecksumChangeEmptiesCache<P>(c: Cache<P>, current: int, key: string)
    requires c.lastChecksum != current
    ensures Get(c, current, key).1 == None
    ensures Get(c, current, key).0 == Cache(map[], current)
    ensures forall k :: Get(Get(c, current, key).0, current, k).1 == None
  {
  }

  /** With an unchanged checksum the test leaves the map alone, so it is idempotent. */
  lemma ClearIsIdempotent<P>(c: Cache<P>, current: int)
    ensures ClearOnChecksumChange(ClearOnChecksumChange(c, current), current)
         == ClearOnChecksumChange(c, current)
    ensures c.lastChecksum == current ==> ClearOnChecksumChange(c, current).entries == c.entries
  {
  }

  /** One cache access, tagged with the checksum the type system reported at that time. */
  datatype Access<P> = GetAccess(checksum: int, key: string) | PutAccess(checksum: int, key: string, program: P)

  function Apply<P>(c: Cache<P>, a: Access<P>): Cache<P>
  {
    match a
    case GetAccess(cs, k) => Get(c, cs, k).0
    case PutAccess(cs, k, p) => Put(c, cs, k, p)
  }

  /** The cache after a sequence of accesses, applied in order. */
  function Run<P>(c: Cache<P>, accesses: seq<Access<P>>): Cache<P>
    decreases |accesses|
  {
    if |accesses| == 0 then c
    else Apply(Run(c, accesses[..|accesses| - 1]), accesses[|accesses| - 1])
  }

  /**
    Reference definition of what a get of `key` under checksum `cs` sees after a history
    of accesses, read from the newest access backwards: the newest put of `key` wins,
    unless some later access ran under another checksum (which cleared everything).
   */
  ghost function LatestPut<P>(c: Cache<P>, accesses: seq<Access<P>>, cs: int, key: string): Option<P>
    decreases |accesses|
  {
    if |accesses| == 0 then
      (if c.lastChecksum == cs && key in c.entries then Some(c.entries[key]) else None)
    else
      var a := accesses[|accesses| - 1];
      if a.checksum != cs then None
      else if a.PutAccess? && a.key == key then Some(a.program)
      else LatestPut(c, accesses[..|accesses| - 1], cs, key)
  }

  /** Any history of gets and puts: a get afterwards sees exactly the reference answer. */
  lemma {:induction false} RunSeesLatestPut<P>(c: Cache<P>, accesses: seq<Access<P>>, cs: int, key: string)
    ensures Get(Run(c, accesses), cs, key).1 == LatestPut(c, accesses, cs, key)
    decreases |accesses|
  {
    if |accesses| > 0 {
      RunSeesLatestPut(c, accesses[..|accesses| - 1], cs, key);
    }
  }
}

=== FILE: runtime.dfy ===
/**
  The data model shared by the code runner: the runtime objects a debugger hands in,
  the type handles the type system hands out, compiled programs, and the exceptions
  the runner can raise.
 */
module Runtime {
  import opened Wrappers

  /** A Java object reference as the runner sees it: null, a String, a boxed integer,
      or any other heap object identified by its address. */
  datatype Obj = Null | Str(s: string) | Int(i: int) | Ref(id: nat)

  /** True when the cast `(String) o` succeeds: null and strings pass, anything else
      raises ClassCastException. */
  predicate CastsToString(o: Obj) {
    o.Null? || o.Str?
  }

  /**
    A type handle. `isGosuClass` is `instanceof IGosuClassInternal`; `hasLocation` says
    whether the class statement has a recorded source location (closures and other
    synthetic nested classes have none); `enclosing` is `getEnclosingType()`.
    Being an inductive datatype, every nesting chain is finite.
   */
  datatype TypeInfo = TypeInfo(
    name: string,
    isGosuClass: bool,
    hasLocation: bool,
    enclosing: Option<TypeInfo>)

  /** The number of enclosing types above `t`. */
  function NestingDepth(t: TypeInfo): nat
  {
    match t.enclosing
    case None => 0
    case Some(e) => 1 + NestingDepth(e)
  }

  /** The deepest parse-tree node containing an offset; its inner structure is the parser's. */
  datatype Anchor = Anchor(id: nat)

  /** A compile-time symbol table: a fresh standard table, or the one recovered for a
      class at an offset (its contents belong to the parser). */
  datatype SymbolTable = FreshTable | ContextTable(id: nat)

  /**
    A compiled program as the runner uses it: whether it is valid, the parse issues
    carried by its parse-results exception, whether it is static, and the declared
    parameter type names of the constructor of its backing class.
   */
  datatype Program = Program(
    valid: bool,
    issues: seq<string>,
    isStatic: bool,
    ctorParams: seq<string>)

  /** The exceptions the runner lets escape. */
  datatype Fault =
    | UnresolvedType(name: string)          // a named context type is not known to the type system
    | NotGosuClass(name: string)            // the immediate context type fails the IGosuClassInternal cast
    | NullPointer                           // a null context type, or a class statement without location
    | OuterStepFailed                       // reflective `this$0` access failed, rethrown as RuntimeException
    | ClassCast(index: nat)                 // a name slot of the symbol array is not a String
    | IndexOutOfBounds(index: nat)          // the symbol array has an odd length
    | ParseResults(issues: seq<string>)     // the compiled program is invalid
    | IllegalState(argCount: nat)           // the constructor shape does not fit the arguments
    | IllegalArgument                       // Constructor.newInstance with the wrong number of arguments
    | Execution(cause: string)              // anything thrown while constructing or evaluating
}

=== FILE: runtime_symbols.dfy ===
/**
  `makeRuntimeNamesAndValues`: the debugger passes the locals in scope as one flat array of
  alternating names and values; the runner turns it into the external symbol map handed to
  the compiled program. Every symbol is declared with type Object, and a name that appears
  twice is bound to the value of its last occurrence.
 */
module RuntimeSymbols {
  import opened Wrappers
  import opened Runtime

  /** The declared type of every runtime symbol (`JavaTypes.OBJECT()`). */
  const ObjectType: string := "java.lang.Object"

  datatype Symbol = Symbol(name: Obj, declaredType: string, value: Obj)

  /** The map behind `ExternalSymbolMapForMap`, keyed by the (String or null) name. */
  type SymbolMap = map<Obj, Symbol>

  /** Every even slot from `from` up to `to` holds something that casts to String. */
  ghost predicate NamesCastBetween(ext: seq<Obj>, from: nat, to: nat)
    requires to <= |ext|
  {
    forall j :: from <= j < to && j % 2 == 0 ==> CastsToString(ext[j])
  }

  /** An array the Java loop walks to the end without throwing. */
  ghost predicate WellFormed(ext: seq<Obj>)
  {
    |ext| % 2 == 0 && NamesCastBetween(ext, 0, |ext|)
  }

  /** `k` is the name in some even slot at or after `from`. */
  ghost predicate NamedFrom(ext: seq<Obj>, from: nat, k: Obj)
  {
    exists j :: from <= j < |ext| && j % 2 == 0 && ext[j] == k
  }

  /** Slot `j` holds a name followed by its value, and no later even slot repeats that name. */
  ghost predicate IsLastNameSlot(ext: seq<Obj>, j: int)
  {
    && 0 <= j && j + 1 < |ext| && j % 2 == 0
    && forall j' :: j < j' < |ext| && j' % 2 == 0 ==> ext[j'] != ext[j]
  }

  /** `f` is the exception the Java loop throws first when it starts at slot `from`. */
  ghost predicate IsFirstFault(ext: seq<Obj>, from: nat, f: Fault)
  {
    match f
    case ClassCast(k) =>
      from <= k < |ext| && k % 2 == 0 && !CastsToString(ext[k]) && NamesCastBetween(ext, from, k)
    case IndexOutOfBounds(k) =>
      from < k == |ext| && k % 2 == 1 && NamesCastBetween(ext, from, |ext|)
    case _ => false
  }

  /** The pairs from slot `from` on, as the loop would bind them. Later pairs win because
      the right operand of a map union overrides the left. */
  function PairsFrom(ext: seq<Obj>, from: nat): (r: Result<SymbolMap, Fault>)
    ensures r.Failure? ==> r.error.ClassCast? || r.error.IndexOutOfBounds?
    ensures r.Success? ==> forall k :: k in r.value ==> r.value[k].declaredType == ObjectType
    decreases |ext| - from
  {
    if from >= |ext| then Success(map[])
    else if !CastsToString(ext[from]) then Failure(ClassCast(from))
    else if from + 1 == |ext| then Failure(IndexOutOfBounds(from + 1))
    else Prefix(map[ext[from] := Symbol(ext[from], ObjectType, ext[from + 1])], PairsFrom(ext, from + 2))
  }

  /** Bindings made earlier, overridden by whatever a successful rest binds. */
  function Prefix(earlier: SymbolMap, rest: Result<SymbolMap, Fault>): Result<SymbolMap, Fault>
  {
    match rest
    case Failure(e) => Failure(e)
    case Success(later) => Success(earlier + later)
  }

  /** The loop from slot `from` succeeds exactly on a well-formed tail, and otherwise
      throws at the first bad slot. */
  lemma {:induction false} PairsFromOutcome(ext: seq<Obj>, from: nat)
    requires from % 2 == 0 && from <= |ext|
    ensures PairsFrom(ext, from).Success? <==> |ext| % 2 == 0 && NamesCastBetween(ext, from, |ext|)
    ensures PairsFrom(ext, from).Failure? ==> IsFirstFault(ext, from, PairsFrom(ext, from).error)
    decreases |ext| - from
  {
    if from < |ext| && CastsToString(ext[from]) && from + 1 < |ext| {
      PairsFromOutcome(ext, from + 2);
    }
  }

  /** The keys bound from slot `from` on are exactly the names found there, each bound to a
      symbol of that name and declared type Object. */
  lemma {:induction false} PairsFromKeys(ext: seq<Obj>, from: nat)
    requires from % 2 == 0 && from <= |ext|
    requires PairsFrom(ext, from).Success?
    ensures forall k :: k in PairsFrom(ext, from).value <==> NamedFrom(ext, from, k)
    ensures forall k :: k in PairsFrom(ext, from).value ==>
              PairsFrom(ext, from).value[k].name == k && PairsFrom(ext, from).value[k].declaredType == ObjectType
    decreases |ext| - from
  {
    if from == |ext| {
      return;
    }
    PairsFromKeys(ext, from + 2);
    var m := PairsFrom(ext, from).value;
    var rest := PairsFrom(ext, from + 2).value;
    assert m == map[ext[from] := Symbol(ext[from], ObjectType, ext[from + 1])] + rest;
    forall k | NamedFrom(ext, from, k)
      ensures k in m
    {
      var j :| from <= j < |ext| && j % 2 == 0 && ext[j] == k;
      if j != from {
        assert NamedFrom(ext, from + 2, k);
      }
    }
    forall k | k in m
      ensures NamedFrom(ext, from, k)
    {
      if k !in rest {
        assert ext[from] == k;
      } else {
        var j :| from + 2 <= j < |ext| && j % 2 == 0 && ext[j] == k;
      }
    }
  }

  /** A name whose slot is the last one carrying it is bound to the value right after it. */
  lemma {:induction false} PairsFromLastWinsAt(ext: seq<Obj>, from: nat, j: nat)
    requires from % 2 == 0 && from <= j
    requires IsLastNameSlot(ext, j)
    requires PairsFrom(ext, from).Success?
    ensures ext[j] in PairsFrom(ext, from).value
    ensures PairsFrom(ext, from).value[ext[j]] == Symbol(ext[j], ObjectType, ext[j + 1])
    decreases |ext| - from
  {
    var sym := Symbol(ext[from], ObjectType, ext[from + 1]);
    var rest := PairsFrom(ext, from + 2).value;
    assert PairsFrom(ext, from).value == map[ext[from] := sym] + rest;
    if j == from {
      LastSlotNotRepeated(ext, j);
      PairsFromKeys(ext, from + 2);
      assert ext[j] !in rest;
    } else {
      PairsFromLastWinsAt(ext, from + 2, j);
    }
  }

  lemma PairsFromLastWins(ext: seq<Obj>, from: nat)
    requires from % 2 == 0 && from <= |ext|
    requires PairsFrom(ext, from).Success?
    ensures forall j: nat :: from <= j && IsLastNameSlot(ext, j) ==>
              ext[j] in PairsFrom(ext, from).value
              && PairsFrom(ext, from).value[ext[j]] == Symbol(ext[j], ObjectType, ext[j + 1])
  {
    forall j: nat | from <= j && IsLastNameSlot(ext, j)
      ensures ext[j] in PairsFrom(ext, from).value
              && PairsFrom(ext, from).value[ext[j]] == Symbol(ext[j], ObjectType, ext[j + 1])
    {
      PairsFromLastWinsAt(ext, from, j);
    }
  }

  lemma LastSlotNotRepeated(ext: seq<Obj>, j: int)
    requires IsLastNameSlot(ext, j)
    ensures !NamedFrom(ext, j + 2, ext[j])
  {
  }

  /** The symbol map the runner builds from the debugger's flat name/value array. */
  function RuntimeNamesAndValues(ext: seq<Obj>): (r: Result<SymbolMap, Fault>)
    ensures r.Success? <==> WellFormed(ext)
    ensures r.Success? ==> forall k :: k in r.value <==> NamedFrom(ext, 0, k)
    ensures r.Success? ==> forall k :: k in r.value ==> r.value[k].name == k && r.value[k].declaredType == ObjectType
    ensures r.Success? ==> forall j :: IsLastNameSlot(ext, j) ==>
              ext[j] in r.value && r.value[ext[j]].value == ext[j + 1]
    ensures r.Failure? ==> IsFirstFault(ext, 0, r.error)
  {
    PairsFromOutcome(ext, 0);
    if PairsFrom(ext, 0).Success? then
      PairsFromKeys(ext, 0);
      PairsFromLastWins(ext, 0);
      PairsFrom(ext, 0)
    else
      PairsFrom(ext, 0)
  }

  /** The Java loop itself: it reads a name, then the value at the next index, and
      overwrites any earlier binding of the same name. */
  method MakeRuntimeNamesAndValues(ext: seq<Obj>) returns (r: Result<SymbolMap, Fault>)
    ensures r == RuntimeNamesAndValues(ext)
  {
    var m: SymbolMap := map[];
    var i: nat := 0;
    PrefixOfEmpty(PairsFrom(ext, 0));
    while i < |ext|
      invariant i <= |ext| && i % 2 == 0
      invariant PairsFrom(ext, 0) == Prefix(m, PairsFrom(ext, i))
      decreases |ext| - i
    {
      var name := ext[i];
      if !CastsToString(name) {
        return Failure(ClassCast(i));
      }
      if i + 1 >= |ext| {
        return Failure(IndexOutOfBounds(i + 1));
      }
      var sym := Symbol(name, ObjectType, ext[i + 1]);
      assert PairsFrom(ext, i) == Prefix(map[name := sym], PairsFrom(ext, i + 2));
      PrefixAbsorbs(m, name, sym, PairsFrom(ext, i + 2));
      m := m[name := sym];
      i := i + 2;
    }
    assert m + map[] == m;
    r := Success(m);
  }

  /** Binding one more name on top of `m` and then the rest is the same as binding it into `m`. */
  lemma PrefixAbsorbs(m: SymbolMap, name: Obj, sym: Symbol, rest: Result<SymbolMap, Fault>)
    ensures Prefix(m, Prefix(map[name := sym], rest)) == Prefix(m[name := sym], rest)
  {
    if rest.Success? {
      assert m + (map[name := sym] + rest.value) == m[name := sym] + rest.value;
    }
  }

  /** Nothing bound before the loop leaves the outcome unchanged. */
  lemma PrefixOfEmpty(rest: Result<SymbolMap, Fault>)
    ensures Prefix(map[], rest) == rest
  {
    if rest.Success? {
      assert map[] + rest.value == rest.value;
    }
  }

  /** The single pair ("x", 5) binds x to 5 with declared type Object. */
  lemma SinglePairScenario()
    ensures RuntimeNamesAndValues([Str("x"), Int(5)])
         == Success(map[Str("x") := Symbol(Str("x"), ObjectType, Int(5))])
  {
    assert PairsFrom([Str("x"), Int(5)], 2) == Success(map[]);
    assert map[Str("x") := Symbol(Str("x"), ObjectType, Int(5))] + map[]
        == map[Str("x") := Symbol(Str("x"), ObjectType, Int(5))];
  }
}

=== FILE: wrappers.dfy ===
/** Failure-compatible wrappers used for Java's null returns and thrown exceptions. */
module Wrappers {

  /** A value that may be absent: stands in for a Java reference that may be null. */
  datatype Option<+T> = None | Some(value: T)

  /** The outcome of a Java call that either returns a value or throws. */
  datatype Result<+T, +E> = Success(value: T) | Failure(error: E)
}
